=== FILE: README.md ===
# General-affairs task tracker: record codec and table views

This project is a Dafny model of the record-handling core of the
general-affairs task tracker (総務部タスク管理システム). The tracker is a single
Streamlit page that keeps its tasks in one worksheet. The model covers the
pure logic buried in that page:

- **Cell codec.** `safe_parse_dt` reads a stored date/time cell by trying
  `YYYY/MM/DD HH:MM`, then `YYYY/MM/DD HH:MM:SS`, then `YYYY/MM/DD`, and
  yields "absent" for anything else. The explicit-mode serialiser writes a
  start or completion cell back as `YYYY/MM/DD HH:MM`, `YYYY/MM/DD` or `""`,
  according to the radio button the editor left selected (date and time,
  date only, blank). Both live in `codec.dfy`; their laws are in
  `codec_laws.dfy`.
- **Edit-form defaults.** When a row is opened for editing, the date, time
  and mode widgets start from the stored cell. The date falls back to today,
  the time falls back to 09:00 (start) or 17:00 (completion), and the mode
  is chosen by whether the cell was read and whether it contains `:`. The
  central law is that an untouched save writes an empty or unreadable start
  or completion cell back as `""`. See `defaults.dfy`.
- **Rows.** A task is fifteen text cells in columns A..O (`record.dfy`).
  The create form builds one and appends it; it refuses an empty title,
  writes the start in full form and leaves the completion blank. The edit
  form builds one and overwrites A..O of the selected row. Each select box
  starts at the current value's position, or at 0 if the value is not an
  option. See `rows.dfy`.
- **Views.** The keyword search keeps the rows that have a cell containing
  the keyword, or every row for an empty keyword, and tags each with its
  sheet row number (index + 2). The dashboard lists the rows whose status
  is not 完了, sorted by occurrence-date text in descending order. See
  `views.dfy`.
- **Worksheet writes.** Append, overwrite of A..O at a row number, and
  delete of a row number, on the sequence of data rows, with the row-number
  consequences of each (`store.dfy`).

"Today" and "now" are parameters throughout. The worksheet is a sequence of
`Task` values: the data rows top to bottom, without the header row.

Two facts about the page that are easy to miss:

- `safe_parse_dt` tries three shapes, including one with seconds
  (main.py:180).
- The edit form writes the row even when the title is empty; only the
  create form checks it (main.py:104, 214-223).

## Model

| member | source | states |
|---|---|---|
| Codec.ParseCell | main.py:178-183 | a missing or empty cell is absent; whatever is read is a valid calendar date and time of day, from a text of one of the three shape lengths |
| Codec.FirstMatch | main.py:180-182 | the result is the value read by some format in the list, and it is absent only when every format in the list fails |
| Codec.TryShape | main.py:181 | a successful `strptime` attempt yields a valid datetime; the minute shape has zero seconds, and the date shape reads as midnight |
| Codec.FormatCell | main.py:215-216 | full mode writes 16 characters beginning with the date, date-only mode writes the 10-character date, blank mode (and only it) writes `""`; only full mode writes a colon |
| CodecLaws.FormatThenParse | main.py:215-216 | reading back a full-mode cell gives the widgets' date and time to the minute; a date-only cell reads as midnight of that date; a blank cell reads as absent |
| CodecLaws.ParseKeepsSeconds | main.py:180-181 | the minute format does not read a cell with seconds, and the seconds format reads it with its seconds kept |
| CodecLaws.ParseIsCanonical | main.py:178-183 | every text the parser accepts is exactly the minute, seconds or date-only rendering of the value it returns |
| CodecLaws.MinuteShapeCanonical | main.py:180-181 | a text the `%Y/%m/%d %H:%M` shape accepts is the full-mode rendering of the value read |
| CodecLaws.SecondShapeCanonical | main.py:180-181 | a text the `%Y/%m/%d %H:%M:%S` shape accepts is the seconds rendering of the value read |
| CodecLaws.DateShapeCanonical | main.py:180-181 | a text the `%Y/%m/%d` shape accepts is the date-only rendering of the value read |
| CodecLaws.ColonMeansTimeShape | main.py:192-193 | for a cell that was read, containing `:` is the same as having been read by a time-bearing shape; a cell without `:` reads as midnight |
| CodecLaws.ColonMeansTimeCell | main.py:192-193 | the same, for a cell that may be missing |
| CodecLaws.ParseCellCascade | main.py:180-182 | parsing a non-empty text is the minute attempt, else the seconds attempt, else the date attempt |
| CodecLaws.NotADateIsAbsent | main.py:179-183 | the text "not a date" is absent, not an error |
| CodecLaws.NonLeapDayIsAbsent | main.py:181 | 2023/02/29 is not a calendar day, so the cell reads as absent |
| CodecLaws.LeapDayParses | main.py:181 | 2024/02/29 reads as that day at midnight |
| CodecLaws.HourOutOfRangeIsAbsent | main.py:181 | hour 24 makes the cell absent |
| CodecLaws.ParseDateCanonical | main.py:180 | a ten-character text read as a date is that date's only spelling |
| CodecLaws.ParseFormatDate | main.py:215-216 | the `%Y/%m/%d` rendering of a valid date reads back as that date |
| EditDefaults.DefaultFor | main.py:189-200 | the mode is blank exactly when the cell is absent, full exactly when a time-bearing shape was read, and date-only exactly when a date was read; the date is the stored one or today; the time is the stored one in full mode and the fallback otherwise |
| EditDefaults.StartDefault | main.py:191-193 | the start field's time falls back to 09:00 |
| EditDefaults.CompletionDefault | main.py:198-200 | the completion field's time falls back to 17:00 |
| EditDefaults.OccurrenceDefault | main.py:185-186 | the occurrence date is the stored date when the cell reads, and today when it is absent or unreadable |
| EditDefaults.UntouchedSave | main.py:191-216 | an untouched save writes `""` exactly for an absent or unreadable start or completion cell; it writes a minute or date-only cell back unchanged, and drops the seconds of a cell that has them |
| EditDefaults.UntouchedSaveIdempotent | main.py:191-216 | saving, untouched, what an untouched save wrote, writes the same text again |
| EditDefaults.UntouchedOccurrence | main.py:185-186 | an untouched save writes the occurrence date as the stored cell's first ten characters when readable, and as today otherwise |
| Record.Cells | main.py:218-222 | a row has exactly fifteen cells, and the cell in column k is the field that header k names (業務種別 is the job type, 対応開始日時 the start, and so on) |
| Record.Lookup | main.py:164 | a header-keyed lookup is absent exactly when the header is missing, and otherwise yields a cell under that header |
| Record.FieldByHeader | main.py:164-211 | reading a written row under any header gives the field that header names, and a name that is not a header gives nothing, so the positional write and the header-keyed read of `curr[...]` agree |
| RowBuilder.FirstIndex | main.py:164-166 | `list.index`: the first position holding the value |
| RowBuilder.SelectIndex | main.py:164-166 | the select box's start index is always in bounds; it is the first position of the current value if the value is an option, else 0 |
| RowBuilder.Preselected | main.py:164-166 | the preselected option is always an option, and equals the current value exactly when that value is an option |
| RowBuilder.CreateRow | main.py:103-110 | a row is built exactly when the title is non-empty; its occurrence date is today's date, its start is the full rendering of the date and time widgets, its completion is `""`, and every other cell is the form's input |
| RowBuilder.UpdateRow | main.py:214-222 | the occurrence date is written date-only; the start and completion cells are their widgets rendered in the mode left selected, so a cell is `""` exactly when its mode is blank; every other cell is the form's input |
| RowBuilder.UpdateRowReadsBack | main.py:215-222 | each date/time cell of an updated row reads back as the widgets' value in the chosen mode |
| RowBuilder.InitialEditForm | main.py:164-211 | the preselected status, job type and assignee are always options, and the title is the stored one |
| RowBuilder.UntouchedEditCells | main.py:164-222 | an untouched save keeps free text; it replaces an unknown status, job type or assignee with the first option and an unreadable occurrence date with today; it blanks an absent or unreadable date/time cell and keeps a readable one without seconds |
| RowBuilder.UntouchedEditKeepsSteadyRow | main.py:164-222 | opening a row whose cells are all in canonical form and saving it untouched rewrites it exactly |
| RowBuilder.CreateThenUntouchedEdit | main.py:104-110 | a created task, reopened and saved untouched, keeps its start and occurrence date, and its completion stays empty |
| Views.Scan | main.py:127-128 | the result lists, in table order, exactly the selected rows from an index on, each with its own sheet row number |
| Views.Numbered | main.py:127-128 | with no keyword, every row is kept in order and the i-th gets row number i + 2 |
| Views.Search | main.py:127-128 | every result is a table row tagged with its row number (index + 2); row numbers increase; for a non-empty keyword the results are exactly the rows with a cell containing it; for an empty keyword they are all rows in order |
| Views.ScanKeepsAll | main.py:127-128 | when every row is selected, the scan is the whole table in order with consecutive row numbers |
| Views.EmptyKeywordShortcut | main.py:127 | skipping the filter for an empty keyword gives the same result as filtering by it |
| Views.EmptyKeywordMatchesAll | main.py:127 | every row contains the empty keyword |
| Views.LexLeTotal | main.py:71 | any two texts are comparable in code-point order |
| Views.LexLeTransitive | main.py:71 | code-point order on texts is transitive |
| Views.InsertDesc | main.py:71 | inserting into a list sorted by descending occurrence date keeps it sorted, and adds exactly the one task |
| Views.SortByOccurredDesc | main.py:71 | the result is a permutation of the input, sorted by descending occurrence-date text |
| Views.NotDone | main.py:69 | each task that is not done keeps its number of occurrences, and a done task has none |
| Views.OpenTasks | main.py:68-71 | the open-task list is sorted by descending occurrence date, and holds each not-done row as many times as the table does, and no done row |
| Views.OpenTasksMembers | main.py:69-71 | a task is listed exactly when it is in the table and its status is not 完了 |
| Store.Append | main.py:111 | the created row becomes the last row; every existing row keeps its position |
| Store.UpdateAt | main.py:223 | an overwrite succeeds exactly for a row number of an existing data row; it replaces that row and leaves every other row as it was |
| Store.DeleteAt | main.py:157 | a delete succeeds exactly for an existing row number; the rows above keep their positions and the rows below move up by one |
| Store.SubmitCreate | main.py:103-111 | an empty title leaves the worksheet unchanged; otherwise exactly one row is appended, and it is the row the create form builds (so every cell `RowBuilder.CreateRow` states holds of it) |
| Store.SaveAtSearchedRow | main.py:148 | a row number taken from a search of the same read addresses the row the search showed, and saving there changes that row only |
| Store.DeleteRenumbers | main.py:157 | after a delete, a fresh read numbers the rows above the deleted one as before and every row below it one less |
| Store.StaleRowNumberHitsNextRow | main.py:157 | an update at a row number read before a delete of an earlier row overwrites the row that was below the intended one |

## Left out

- The Streamlit page itself: tabs, forms, widgets, column configuration, reruns and messages. It is presentation only.
- Choosing which row to edit: when several rows are ticked, the page edits the ticked row that is lowest in table order (main.py:144-149). This is widget state.
- The delete confirmation checkbox (main.py:155-156). It is a widget guard.
- The remote worksheet service and its credentials (main.py:17-27). The worksheet is a sequence of data rows, and its reads and writes are the functions of `store.dfy`.
- The staff-roster fetch and its 担当者不明 fallback (main.py:40-44). The roster is a parameter.
- The chat notifier (main.py:33-38). It is a network call whose failures are swallowed, and no write depends on it.
- The wall clock and the JST timezone (main.py:11, 92). "Now" for the create form and "today" for the edit form are parameters. The create form uses JST, while `datetime.date.today()` in the edit form uses the server's local date. The model does not relate the two.
- Sub-second parts of times. Nothing the page writes keeps them.
- Codec.ParseCell: reads only the strict canonical shapes. `strptime` also accepts fields without zero padding, any whitespace where the format has a space, and non-ASCII decimal digits.
- Codec.FormatCell: always pads the year to four digits. `strftime("%Y")` renders years below 1000 in a platform-dependent way.
- Views.Search: models plain substring search. pandas `str.contains` reads the keyword as a regular expression, so the model covers keywords without regular-expression metacharacters.
- Cells that look like numbers. `get_all_records` (main.py:65, 123) turns every such cell into an int or a float, dropping thousands commas. The page then works on `str()` of that number. The model keeps every cell as the text stored, so the laws below hold only for cells that do not look like numbers. For example, a requester `09012345678` is read as 9012345678: an untouched save writes `9012345678` back, and the keyword `0901` does not find the row.
- RowBuilder.UntouchedEditCells: "free text is kept" holds only for cells that do not look like numbers; an untouched save writes `09012345678` as `9012345678`, `1,200` as `1200` and `1.50` as `1.5`.
- RowBuilder.UntouchedEditKeepsSteadyRow: the exact rewrite holds only for rows none of whose cells look like numbers.
- Views.Search: matches the keyword against the stored text; the page matches against `str()` of the number for a cell that looks like one, so `0901` does not find `09012345678`.
- Views.OpenTasks: compares occurrence dates as text in code-point order. Cells that `get_all_records` turns into numbers, missing (NaN) values, and the tie order of the unstable sort are not modelled. Cells are text throughout the model.
- Store.UpdateAt: reports a row number outside the data rows as an error. The service instead overwrites the header for row 1, writes a new row below the table for a row number past the end, and raises an error for a row number of 0 or less. The page only uses row numbers from a read of the same run.
- Store.DeleteAt: reports a row number outside the data rows as an error. The service would delete the header for row 1, and raise an error for a row number of 0 or less or past the end of the sheet. The page only deletes row numbers from a read of the same run.
- RowBuilder.InitialEditForm: requires a non-empty roster. With an empty roster, the assignee select box has no value.
- Extra worksheet columns beyond O, and headers that differ from the fifteen the page writes. The model's table has exactly columns A..O.

=== FILE: calendar.dfy ===
/** Calendar dates and wall-clock times with the validity rules of Python's
    `datetime` constructors: a parse that yields an out-of-range field is
    rejected rather than normalised. */
module Calendar {

  datatype Date = Date(year: nat, month: nat, day: nat)

  /** A time of day at second resolution; sub-second parts are not modelled. */
  datatype Time = Time(hour: nat, minute: nat, second: nat)

  datatype DateTime = DateTime(date: Date, time: Time)

  /** `datetime.MINYEAR` and `datetime.MAXYEAR`. */
  const MinYear: int := 1
  const MaxYear: int := 9999

  /** 00:00:00, the time a date-only value carries once it is a datetime. */
  const Midnight: Time := Time(0, 0, 0)

  /** Gregorian leap-year rule. */
  predicate IsLeapYear(y: int) {
    y % 4 == 0 && (y % 100 != 0 || y % 400 == 0)
  }

  function DaysInMonth(y: int, m: int): (r: int)
    requires 1 <= m <= 12
    ensures 28 <= r <= 31
    ensures m == 2 ==> (r == 29 <==> IsLeapYear(y))
    ensures m != 2 ==> (r == 30 <==> m in {4, 6, 9, 11})
  {
    if m == 2 then (if IsLeapYear(y) then 29 else 28)
    else if m in {4, 6, 9, 11} then 30
    else 31
  }

  predicate ValidDate(d: Date) {
    && MinYear <= d.year <= MaxYear
    && 1 <= d.month <= 12
    && 1 <= d.day <= DaysInMonth(d.year, d.month)
  }

  predicate ValidTime(t: Time) {
    0 <= t.hour < 24 && 0 <= t.minute < 60 && 0 <= t.second < 60
  }

  predicate ValidDateTime(dt: DateTime) {
    ValidDate(dt.date) && ValidTime(dt.time)
  }

  /** The same time with its seconds dropped, which is what a
      `%H:%M` rendering keeps of it. */
  function AtMinute(t: Time): (r: Time)
    ensures ValidTime(t) ==> ValidTime(r)
    ensures r.hour == t.hour && r.minute == t.minute && r.second == 0
  {
    Time(t.hour, t.minute, 0)
  }
}

=== FILE: codec.dfy ===
/** The date/time cell codec of the edit form: `safe_parse_dt`, which reads
    a stored cell by trying three `strptime` shapes in a fixed order, and
    the explicit-mode serialiser that writes the start and completion cells
    back (main.py:178-183, 215-216).

    The parser is the strict reading of the three shapes: four-digit year,
    two-digit month, day, hour, minute and second, ASCII digits, one space. */
module Codec {
  import opened Wrappers
  import opened Calendar
  import opened Digits

  /** The three choices of the start/completion radio button, in the
      order they are offered: "日付+時刻" (date and time), "日付のみ"
      (date only) and "空欄" (blank). */
  datatype Mode = Full | DateOnly | Blank

  /** The `strptime` formats `safe_parse_dt` tries. */
  datatype Shape =
    | MinuteShape   // %Y/%m/%d %H:%M
    | SecondShape   // %Y/%m/%d %H:%M:%S
    | DateShape     // %Y/%m/%d

  /** The order in which the formats are tried; the first that matches wins. */
  const ParseOrder: seq<Shape> := [MinuteShape, SecondShape, DateShape]

  // ---------------------------------------------------------------------
  // Rendering (`strftime`)

  /** `%Y/%m/%d`. */
  function FormatDate(d: Date): string {
    Pad(d.year, 4) + "/" + Pad(d.month, 2) + "/" + Pad(d.day, 2)
  }

  /** `%Y/%m/%d %H:%M`. */
  function FormatMinute(d: Date, t: Time): string {
    FormatDate(d) + " " + Pad(t.hour, 2) + ":" + Pad(t.minute, 2)
  }

  /** `%Y/%m/%d %H:%M:%S`: never written by the page, but one of the shapes
      it reads. */
  function FormatSecond(d: Date, t: Time): string {
    FormatMinute(d, t) + ":" + Pad(t.second, 2)
  }

  /** The serialiser `fs` / `fe`: the cell text for a date widget, a time
      widget and the selected mode. */
  function FormatCell(d: Date, t: Time, mode: Mode): (r: string)
    ensures mode == Full ==> |r| == 16 && r[..10] == FormatDate(d) && r[10] == ' ' && r[13] == ':'
    ensures mode == DateOnly ==> |r| == 10 && r == FormatDate(d)
    ensures mode == Blank <==> r == ""
    ensures ':' in r <==> mode == Full
  {
    match mode
    case Full => FormatMinute(d, t)
    case DateOnly => FormatDate(d)
    case Blank => ""
  }

  // ---------------------------------------------------------------------
  // Reading (`strptime`)

  /** Reads a `%Y/%m/%d` field of exactly ten characters. */
  function ParseDate(s: string): (r: Option<Date>)
    requires |s| == 10
    ensures r.Some? ==> ValidDate(r.value)
  {
    if s[4] == '/' && s[7] == '/'
       && AllDigits(s[..4]) && AllDigits(s[5..7]) && AllDigits(s[8..])
    then
      var d := Date(ValueOf(s[..4]), ValueOf(s[5..7]), ValueOf(s[8..]));
      if ValidDate(d) then Some(d) else None
    else None
  }

  /** Reads a `%H:%M` field of exactly five characters. */
  function ParseHourMinute(s: string): (r: Option<Time>)
    requires |s| == 5
    ensures r.Some? ==> ValidTime(r.value) && r.value.second == 0
  {
    if s[2] == ':' && AllDigits(s[..2]) && AllDigits(s[3..]) then
      var t := Time(ValueOf(s[..2]), ValueOf(s[3..]), 0);
      if ValidTime(t) then Some(t) else None
    else None
  }

  /** Reads a `%S` field of exactly two characters. */
  function ParseSecond(s: string): (r: Option<nat>)
    requires |s| == 2
    ensures r.Some? ==> r.value < 60
  {
    if AllDigits(s) && ValueOf(s) < 60 then Some(ValueOf(s)) else None
  }

  /** One `strptime(val, fmt)` attempt; `None` stands for the `ValueError`
      that `safe_parse_dt` catches. */
  function TryShape(shape: Shape, s: string): (r: Option<DateTime>)
    ensures r.Some? ==> ValidDateTime(r.value)
    ensures r.Some? && shape == MinuteShape ==> |s| == 16 && r.value.time.second == 0
    ensures r.Some? && shape == SecondShape ==> |s| == 19
    ensures r.Some? && shape == DateShape ==> |s| == 10 && r.value.time == Midnight
  {
    match shape
    case MinuteShape =>
      if |s| == 16 && s[10] == ' ' then
        match (ParseDate(s[..10]), ParseHourMinute(s[11..]))
        case (Some(d), Some(t)) => Some(DateTime(d, t))
        case _ => None
      else None
    case SecondShape =>
      if |s| == 19 && s[10] == ' ' && s[16] == ':' then
        match (ParseDate(s[..10]), ParseHourMinute(s[11..16]), ParseSecond(s[17..]))
        case (Some(d), Some(t), Some(sec)) => Some(DateTime(d, Time(t.hour, t.minute, sec)))
        case _ => None
      else None
    case DateShape =>
      if |s| == 10 then
        match ParseDate(s)
        case Some(d) => Some(DateTime(d, Midnight))
        case None => None
      else None
  }

  /** The `for fmt in (...)` loop: the first shape that reads `s`. */
  function FirstMatch(shapes: seq<Shape>, s: string): (r: Option<DateTime>)
    ensures r.Some? ==> exists k :: 0 <= k < |shapes| && TryShape(shapes[k], s) == r
    ensures r.None? ==> forall k :: 0 <= k < |shapes| ==> TryShape(shapes[k], s).None?
  {
    if |shapes| == 0 then None
    else
      match TryShape(shapes[0], s)
      case Some(dt) => Some(dt)
      case None => FirstMatch(shapes[1..], s)
  }

  /** `safe_parse_dt`: a missing (`None`/NaN) or empty cell, and any text
      none of the three shapes reads, is absent; it never fails. */
  function ParseCell(val: Option<string>): (r: Option<DateTime>)
    ensures val.None? || val == Some("") ==> r.None?
    ensures r.Some? ==> ValidDateTime(r.value)
    ensures r.Some? ==> |val.value| == 10 || |val.value| == 16 || |val.value| == 19
  {
    if val.None? || val.value == "" then None
    else FirstMatch(ParseOrder, val.value)
  }

  /** `":" in str(val)`, the test the edit form uses to tell a stored
      datetime from a stored date. */
  predicate HasColon(val: Option<string>) {
    val.Some? && ':' in val.value
  }
}

=== FILE: codec_laws.dfy ===
/** Laws of the cell codec: what `safe_parse_dt` gives back for each shape
    the serialiser writes, that it reads nothing but those shapes, and how
    the `":"` test lines up with the shape that was read. */
module CodecLaws {
  import opened Wrappers
  import opened Calendar
  import opened Digits
  import opened Codec

  // ---------------------------------------------------------------------
  // Field-level round trips

  lemma ParseFormatDate(d: Date)
    requires ValidDate(d)
    ensures ParseDate(FormatDate(d)) == Some(d)
  {
    var s := FormatDate(d);
    assert Pow10(2) == 100 && Pow10(4) == 10000;
    assert s[..4] == Pad(d.year, 4);
    assert s[5..7] == Pad(d.month, 2);
    assert s[8..] == Pad(d.day, 2);
    ValueOfPad(d.year, 4);
    ValueOfPad(d.month, 2);
    ValueOfPad(d.day, 2);
  }

  lemma ParseFormatHourMinute(t: Time)
    requires ValidTime(t)
    ensures ParseHourMinute(Pad(t.hour, 2) + ":" + Pad(t.minute, 2)) == Some(AtMinute(t))
  {
    var s := Pad(t.hour, 2) + ":" + Pad(t.minute, 2);
    assert Pow10(2) == 100;
    assert s[..2] == Pad(t.hour, 2);
    assert s[3..] == Pad(t.minute, 2);
    ValueOfPad(t.hour, 2);
    ValueOfPad(t.minute, 2);
  }

  /** A ten-character text that reads as a date is that date's only spelling. */
  lemma ParseDateCanonical(s: string)
    requires |s| == 10 && ParseDate(s).Some?
    ensures FormatDate(ParseDate(s).value) == s
  {
    PadValueOf(s[..4]);
    PadValueOf(s[5..7]);
    PadValueOf(s[8..]);
    assert s == s[..4] + "/" + s[5..7] + "/" + s[8..];
  }

  lemma ParseHourMinuteCanonical(s: string)
    requires |s| == 5 && ParseHourMinute(s).Some?
    ensures var t := ParseHourMinute(s).value; Pad(t.hour, 2) + ":" + Pad(t.minute, 2) == s
  {
    PadValueOf(s[..2]);
    PadValueOf(s[3..]);
    assert s == s[..2] + ":" + s[3..];
  }

  lemma FormatDateHasNoColon(d: Date)
    ensures ':' !in FormatDate(d)
  {
    var s := FormatDate(d);
    assert forall i :: 0 <= i < |s| ==> s[i] == '/' || IsDigit(s[i]) by {
      assert s == Pad(d.year, 4) + "/" + Pad(d.month, 2) + "/" + Pad(d.day, 2);
    }
  }

  // ---------------------------------------------------------------------
  // Cell-level laws

  /** `ParseCell` on a non-empty text is the three attempts in order. */
  lemma ParseCellCascade(s: string)
    requires s != ""
    ensures ParseCell(Some(s)) ==
      if TryShape(MinuteShape, s).Some? then TryShape(MinuteShape, s)
      else if TryShape(SecondShape, s).Some? then TryShape(SecondShape, s)
      else TryShape(DateShape, s)
  {
    var rest2: seq<Shape> := [SecondShape, DateShape];
    var rest3: seq<Shape> := [DateShape];
    assert ParseOrder[1..] == rest2 && rest2[1..] == rest3;
    assert FirstMatch(rest3, s) == TryShape(DateShape, s) by {
      assert rest3[1..] == [];
    }
    assert FirstMatch(rest2, s) ==
      if TryShape(SecondShape, s).Some? then TryShape(SecondShape, s) else FirstMatch(rest3, s);
  }

  /** What the serialiser writes reads back as the widgets' date and time:
      full mode keeps the time to the minute, date-only mode reads as
      midnight of that date, and blank mode reads as absent. */
  lemma FormatThenParse(d: Date, t: Time, mode: Mode)
    requires ValidDate(d) && ValidTime(t)
    ensures mode == Full ==> ParseCell(Some(FormatCell(d, t, mode))) == Some(DateTime(d, AtMinute(t)))
    ensures mode == DateOnly ==> ParseCell(Some(FormatCell(d, t, mode))) == Some(DateTime(d, Midnight))
    ensures mode == Blank ==> ParseCell(Some(FormatCell(d, t, mode))) == None
  {
    var s := FormatCell(d, t, mode);
    match mode
    case Full =>
      assert s[..10] == FormatDate(d);
      assert s[11..] == Pad(t.hour, 2) + ":" + Pad(t.minute, 2);
      ParseFormatDate(d);
      ParseFormatHourMinute(t);
      assert TryShape(MinuteShape, s) == Some(DateTime(d, AtMinute(t)));
      ParseCellCascade(s);
    case DateOnly =>
      ParseFormatDate(d);
      assert TryShape(MinuteShape, s) == None;
      assert TryShape(SecondShape, s) == None;
      assert TryShape(DateShape, s) == Some(DateTime(d, Midnight));
      ParseCellCascade(s);
    case Blank =>
  }

  /** A stored value with seconds is read with its seconds: the first
      format does not match it, the second does. */
  lemma ParseKeepsSeconds(d: Date, t: Time)
    requires ValidDate(d) && ValidTime(t)
    ensures TryShape(MinuteShape, FormatSecond(d, t)) == None
    ensures ParseCell(Some(FormatSecond(d, t))) == Some(DateTime(d, t))
  {
    var s := FormatSecond(d, t);
    assert |s| == 19;
    assert s[..10] == FormatDate(d);
    assert s[11..16] == Pad(t.hour, 2) + ":" + Pad(t.minute, 2);
    assert s[17..] == Pad(t.second, 2);
    ParseFormatDate(d);
    ParseFormatHourMinute(t);
    assert Pow10(2) == 100;
    ValueOfPad(t.second, 2);
    assert TryShape(SecondShape, s) == Some(DateTime(d, t));
    ParseCellCascade(s);
  }

  /** `safe_parse_dt` reads only the canonical spellings: whatever text it
      accepts is the `%H:%M`, the `%H:%M:%S` or the date-only rendering of
      the value it returns. */
  lemma ParseIsCanonical(s: string)
    requires ParseCell(Some(s)).Some?
    ensures var dt := ParseCell(Some(s)).value;
      || (|s| == 16 && dt.time.second == 0 && s == FormatCell(dt.date, dt.time, Full))
      || (|s| == 19 && s == FormatSecond(dt.date, dt.time))
      || (|s| == 10 && dt.time == Midnight && s == FormatCell(dt.date, dt.time, DateOnly))
  {
    ParseCellCascade(s);
    if TryShape(MinuteShape, s).Some? {
      MinuteShapeCanonical(s);
    } else if TryShape(SecondShape, s).Some? {
      SecondShapeCanonical(s);
    } else {
      DateShapeCanonical(s);
    }
  }

  /** A text the minute shape accepts is the full-mode rendering of what it read. */
  lemma MinuteShapeCanonical(s: string)
    requires TryShape(MinuteShape, s).Some?
    ensures var dt := TryShape(MinuteShape, s).value;
      s == FormatCell(dt.date, dt.time, Full)
  {
    ParseDateCanonical(s[..10]);
    ParseHourMinuteCanonical(s[11..]);
    assert s == s[..10] + " " + s[11..];
  }

  /** A text the seconds shape accepts is the seconds rendering of what it read. */
  lemma SecondShapeCanonical(s: string)
    requires TryShape(SecondShape, s).Some?
    ensures var dt := TryShape(SecondShape, s).value;
      s == FormatSecond(dt.date, dt.time)
  {
    ParseDateCanonical(s[..10]);
    ParseHourMinuteCanonical(s[11..16]);
    PadValueOf(s[17..]);
    assert s == s[..10] + " " + s[11..16] + ":" + s[17..];
  }

  /** A text the date shape accepts is the date-only rendering of what it read. */
  lemma DateShapeCanonical(s: string)
    requires TryShape(DateShape, s).Some?
    ensures var dt := TryShape(DateShape, s).value;
      s == FormatCell(dt.date, dt.time, DateOnly)
  {
    ParseDateCanonical(s);
  }

  /** For a cell that parsed, `":" in str(val)` holds exactly when a time
      shape was read; a date-only cell is the one without a colon. */
  lemma ColonMeansTimeShape(s: string)
    requires ParseCell(Some(s)).Some?
    ensures HasColon(Some(s)) <==> |s| != 10
    ensures !HasColon(Some(s)) ==> ParseCell(Some(s)).value.time == Midnight
  {
    var dt := ParseCell(Some(s)).value;
    ParseIsCanonical(s);
    if |s| == 10 {
      FormatDateHasNoColon(dt.date);
    } else {
      assert s[13] == ':';
    }
  }

  /** `ColonMeansTimeShape` for a cell that may be missing or unreadable. */
  lemma ColonMeansTimeCell(cell: Option<string>)
    ensures ParseCell(cell).Some? ==> (HasColon(cell) <==> |cell.value| != 10)
  {
    if ParseCell(cell).Some? {
      ColonMeansTimeShape(cell.value);
    }
  }

  /** Text of the right length that is not a date is absent. */
  lemma NotADateIsAbsent()
    ensures ParseCell(Some("not a date")) == None
  {
    ParseCellCascade("not a date");
  }

  /** The values of the literal digit fields the example lemmas below use. */
  lemma LiteralFieldValues()
    ensures ValueOf("2024") == 2024 && ValueOf("2023") == 2023
    ensures ValueOf("02") == 2 && ValueOf("29") == 29 && ValueOf("24") == 24
  {
    assert "2024"[..3] == "202" && "2023"[..3] == "202";
    assert "202"[..2] == "20" && "20"[..1] == "2";
    assert ValueOf("2") == 2 && ValueOf("20") == 20 && ValueOf("202") == 202;
    assert "02"[..1] == "0" && "29"[..1] == "2" && "24"[..1] == "2";
  }

  /** 2023 is not a leap year, so its 29 February is a day the calendar
      does not have and the cell is absent. */
  lemma NonLeapDayIsAbsent()
    ensures ParseCell(Some("2023/02/29")) == None
  {
    LiteralFieldValues();
    var a := "2023/02/29";
    assert a[..4] == "2023" && a[5..7] == "02" && a[8..] == "29";
    ParseCellCascade(a);
  }

  /** 2024 is a leap year, so its 29 February reads as that day. */
  lemma LeapDayParses()
    ensures ParseCell(Some("2024/02/29")) == Some(DateTime(Date(2024, 2, 29), Midnight))
  {
    LiteralFieldValues();
    var b := "2024/02/29";
    assert b[..4] == "2024" && b[5..7] == "02" && b[8..] == "29";
    ParseCellCascade(b);
  }

  /** Hour 24 is out of range, so the cell is absent. */
  lemma HourOutOfRangeIsAbsent()
    ensures ParseCell(Some("2024/02/29 24:00")) == None
  {
    LiteralFieldValues();
    var c := "2024/02/29 24:00";
    assert c[11..][..2] == "24";
    ParseCellCascade(c);
  }
}

=== FILE: defaults.dfy ===
/** What the edit form's date, time and mode widgets start from when a row
    is opened (main.py:185-200), and what an untouched save writes back
    from those starting values (main.py:215-216). "Today" is a parameter. */
module EditDefaults {
  import opened Wrappers
  import opened Calendar
  import opened Codec
  import opened CodecLaws

  /** The widgets of one date/time field: the date input, the time input
      and the mode radio button. */
  datatype FieldInput = FieldInput(date: Date, time: Time, mode: Mode)

  /** The time widget's value when the stored start cell has no time. */
  const StartFallbackTime: Time := Time(9, 0, 0)

  /** The time widget's value when the stored completion cell has no time. */
  const CompletionFallbackTime: Time := Time(17, 0, 0)

  /** The widgets' starting values for a stored start or completion cell.
      The mode is full for a cell read with a time, date-only for a cell
      read as a date, and blank for an absent cell; the date falls back to
      today and the time to `fallback`. */
  function DefaultFor(cell: Option<string>, today: Date, fallback: Time): (r: FieldInput)
    ensures ValidDate(today) && ValidTime(fallback) ==> ValidDate(r.date) && ValidTime(r.time)
    ensures r.mode == Blank <==> ParseCell(cell).None?
    ensures r.mode == Full <==> ParseCell(cell).Some? && |cell.value| != 10
    ensures r.mode == DateOnly <==> ParseCell(cell).Some? && |cell.value| == 10
    ensures ParseCell(cell).Some? ==> r.date == ParseCell(cell).value.date
    ensures ParseCell(cell).None? ==> r.date == today
    ensures r.mode == Full ==> r.time == ParseCell(cell).value.time
    ensures r.mode != Full ==> r.time == fallback
  {
    var parsed := ParseCell(cell);
    ColonMeansTimeCell(cell);
    var timed := parsed.Some? && HasColon(cell);
    FieldInput(
      if parsed.Some? then parsed.value.date else today,
      if timed then parsed.value.time else fallback,
      if timed then Full else if parsed.Some? then DateOnly else Blank)
  }

  /** The start field (対応開始日時) defaults to 09:00. */
  function StartDefault(cell: Option<string>, today: Date): (r: FieldInput)
    ensures r.mode != Full ==> r.time == Time(9, 0, 0)
  {
    DefaultFor(cell, today, StartFallbackTime)
  }

  /** The completion field (完了日時) defaults to 17:00. */
  function CompletionDefault(cell: Option<string>, today: Date): (r: FieldInput)
    ensures r.mode != Full ==> r.time == Time(17, 0, 0)
  {
    DefaultFor(cell, today, CompletionFallbackTime)
  }

  /** The occurrence-date widget (発生日): the stored date, else today. */
  function OccurrenceDefault(cell: Option<string>, today: Date): (r: Date)
    ensures ValidDate(today) ==> ValidDate(r)
    ensures ParseCell(cell).Some? ==> r == ParseCell(cell).value.date
    ensures ParseCell(cell).None? ==> r == today
  {
    var parsed := ParseCell(cell);
    if parsed.Some? then parsed.value.date else today
  }

  /** The cell text a save writes for a field's widgets. */
  function SaveField(f: FieldInput): string {
    FormatCell(f.date, f.time, f.mode)
  }

  /** An untouched save writes back an empty or unreadable start or
      completion cell as `""`, a minute or date-only cell unchanged, and a
      cell with seconds with its seconds dropped. */
  lemma UntouchedSave(cell: Option<string>, today: Date, fallback: Time)
    requires ValidDate(today) && ValidTime(fallback)
    ensures var out := SaveField(DefaultFor(cell, today, fallback));
      && (out == "" <==> ParseCell(cell).None?)
      && (ParseCell(cell).Some? && |cell.value| != 19 ==> out == cell.value)
      && (ParseCell(cell).Some? && |cell.value| == 19 ==> out == cell.value[..16])
  {
    var f := DefaultFor(cell, today, fallback);
    if ParseCell(cell).Some? {
      var s := cell.value;
      var dt := ParseCell(cell).value;
      ParseIsCanonical(s);
      ColonMeansTimeShape(s);
      if |s| == 19 {
        assert s[..16] == FormatMinute(dt.date, dt.time);
      }
    }
  }

  /** An untouched save is a fixed point: saving what it wrote, untouched,
      writes the same text again. */
  lemma UntouchedSaveIdempotent(cell: Option<string>, today: Date, fallback: Time)
    requires ValidDate(today) && ValidTime(fallback)
    ensures var out := SaveField(DefaultFor(cell, today, fallback));
      SaveField(DefaultFor(Some(out), today, fallback)) == out
  {
    var out := SaveField(DefaultFor(cell, today, fallback));
    UntouchedSave(cell, today, fallback);
    UntouchedSave(Some(out), today, fallback);
    if ParseCell(cell).Some? && |cell.value| == 19 {
      var dt := ParseCell(cell).value;
      ParseIsCanonical(cell.value);
      assert out == FormatCell(dt.date, dt.time, Full);
      FormatThenParse(dt.date, dt.time, Full);
    }
  }

  /** An untouched save writes the occurrence date as the stored cell's
      date part when it is readable, and as today otherwise. */
  lemma UntouchedOccurrence(cell: Option<string>, today: Date)
    ensures ParseCell(cell).Some? ==> FormatDate(OccurrenceDefault(cell, today)) == cell.value[..10]
    ensures ParseCell(cell).None? ==> FormatDate(OccurrenceDefault(cell, today)) == FormatDate(today)
  {
    if ParseCell(cell).Some? {
      ParseIsCanonical(cell.value);
    }
  }
}

=== FILE: digits.dfy ===
/** Fixed-width decimal fields: the zero-padded `%Y`, `%m`, `%d`, `%H`,
    `%M` and `%S` renderings, and reading such a field back. */
module Digits {

  predicate IsDigit(c: char) {
    '0' <= c <= '9'
  }

  predicate AllDigits(s: string) {
    forall i :: 0 <= i < |s| ==> IsDigit(s[i])
  }

  function DigitValue(c: char): (r: nat)
    requires IsDigit(c)
    ensures r < 10
  {
    c as int - '0' as int
  }

  function DigitChar(n: nat): (c: char)
    requires n < 10
    ensures IsDigit(c) && DigitValue(c) == n
  {
    (n + '0' as int) as char
  }

  function Pow10(w: nat): (r: nat)
    ensures r >= 1
  {
    if w == 0 then 1 else 10 * Pow10(w - 1)
  }

  /** The decimal value of a string of digits, most significant first. */
  function ValueOf(s: string): (r: nat)
    requires AllDigits(s)
    ensures r < Pow10(|s|)
  {
    if |s| == 0 then 0 else 10 * ValueOf(s[..|s| - 1]) + DigitValue(s[|s| - 1])
  }

  /** `n` written with exactly `width` digits, zero padded on the left. */
  function Pad(n: nat, width: nat): (s: string)
    ensures |s| == width
    ensures AllDigits(s)
  {
    if width == 0 then [] else Pad(n / 10, width - 1) + [DigitChar(n % 10)]
  }

  /** Reading back a padded field gives the number that was written,
      provided it fits in the field. */
  lemma {:induction false} ValueOfPad(n: nat, width: nat)
    requires n < Pow10(width)
    ensures ValueOf(Pad(n, width)) == n
  {
    if width > 0 {
      var p := Pad(n / 10, width - 1);
      var s := Pad(n, width);
      assert s[..|s| - 1] == p;
      ValueOfPad(n / 10, width - 1);
    }
  }

  /** A field of digits is exactly the padded rendering of its value:
      there is one spelling per number and width. */
  lemma {:induction false} PadValueOf(s: string)
    requires AllDigits(s)
    ensures Pad(ValueOf(s), |s|) == s
  {
    if |s| > 0 {
      var init := s[..|s| - 1];
      assert AllDigits(init);
      PadValueOf(init);
      var v := ValueOf(s);
      assert v / 10 == ValueOf(init);
      assert v % 10 == DigitValue(s[|s| - 1]);
      assert s == init + [s[|s| - 1]];
    }
  }
}

=== FILE: record.dfy ===
/** One task row of the main worksheet: fifteen text cells in the fixed
    column order A..O (main.py:106-110, 218-223), read back by header name
    (main.py:164-211). */
module Record {
  import opened Wrappers

  /** A task row; each field is the text of one cell. */
  datatype Task = Task(
    occurred: string,    // A 発生日      occurrence date
    job: string,         // B 業務種別    job type
    status: string,      // C ステータス  status
    title: string,       // D 案件名      title
    content: string,     // E 内容        description
    cause: string,       // F 原因        cause
    action: string,      // G 対処        action taken
    location: string,    // H 場所        location
    dept: string,        // I 依頼部署    requesting department
    requester: string,   // J 依頼者      requester
    staff: string,       // K 担当者      assignee
    started: string,     // L 対応開始日時 start date/time
    completed: string,   // M 完了日時    completion date/time
    memo: string,        // N メモ        memo
    photo: string        // O 写真URL     photo link
  )

  /** The number of columns A..O every write covers. */
  const Width: nat := 15

  /** The header row, in column order. */
  const Columns: seq<string> := [
    "発生日", "業務種別", "ステータス", "案件名", "内容", "原因", "対処",
    "場所", "依頼部署", "依頼者", "担当者", "対応開始日時", "完了日時", "メモ", "写真URL"]

  /** The status that takes a task off the open-task view. */
  const Done: string := "完了"

  /** The status and job-type choices, in the order the select boxes list them. */
  const StatusOptions: seq<string> := ["受付", "対応中", "保留中", "完了"]
  const JobOptions: seq<string> := ["修繕", "管理", "その他"]

  /** The field each header names, as the edit form reads it
      (`curr["業務種別"]` is the job type, and so on); no field for any
      other name. */
  function FieldOf(t: Task, name: string): Option<string> {
    match name
    case "発生日" => Some(t.occurred)
    case "業務種別" => Some(t.job)
    case "ステータス" => Some(t.status)
    case "案件名" => Some(t.title)
    case "内容" => Some(t.content)
    case "原因" => Some(t.cause)
    case "対処" => Some(t.action)
    case "場所" => Some(t.location)
    case "依頼部署" => Some(t.dept)
    case "依頼者" => Some(t.requester)
    case "担当者" => Some(t.staff)
    case "対応開始日時" => Some(t.started)
    case "完了日時" => Some(t.completed)
    case "メモ" => Some(t.memo)
    case "写真URL" => Some(t.photo)
    case _ => None
  }

  /** The row as written: the cell texts in column order, each under the
      header that names its field. */
  function Cells(t: Task): (r: seq<string>)
    ensures |r| == Width == |Columns|
    ensures forall k :: 0 <= k < Width ==> FieldOf(t, Columns[k]) == Some(r[k])
  {
    [t.occurred, t.job, t.status, t.title, t.content, t.cause, t.action,
     t.location, t.dept, t.requester, t.staff, t.started, t.completed, t.memo, t.photo]
  }

  /** The value of the first key equal to `name`: a header-keyed lookup such
      as `curr["ステータス"]` on the record `get_all_records` builds. */
  function Lookup(keys: seq<string>, values: seq<string>, name: string): (r: Option<string>)
    requires |keys| == |values|
    ensures r.None? <==> name !in keys
    ensures r.Some? ==> exists k :: 0 <= k < |keys| && keys[k] == name && values[k] == r.value
  {
    if |keys| == 0 then None
    else if keys[0] == name then Some(values[0])
    else Lookup(keys[1..], values[1..], name)
  }

  /** The cell of `t` under the header `name`. */
  function Field(t: Task, name: string): Option<string> {
    Lookup(Columns, Cells(t), name)
  }

  predicate Distinct(keys: seq<string>) {
    forall i, j :: 0 <= i < j < |keys| ==> keys[i] != keys[j]
  }

  lemma {:induction false} LookupDistinct(keys: seq<string>, values: seq<string>, k: nat)
    requires |keys| == |values| && Distinct(keys) && k < |keys|
    ensures Lookup(keys, values, keys[k]) == Some(values[k])
  {
    if k > 0 {
      assert keys[0] != keys[k];
      assert keys[1..][k - 1] == keys[k];
      LookupDistinct(keys[1..], values[1..], k - 1);
    }
  }

  lemma ColumnsDistinct()
    ensures Distinct(Columns)
  {
    // The headers differ in length or in their first or last character.
    forall i, j | 0 <= i < j < |Columns|
      ensures Columns[i] != Columns[j]
    {
      assert |Columns[i]| != |Columns[j]| || Columns[i][0] != Columns[j][0]
        || Columns[i][|Columns[i]| - 1] != Columns[j][|Columns[j]| - 1];
    }
  }

  /** The positional write and the header-keyed read agree: reading the
      written row under any header gives the field that header names, and
      a name that is not a header gives nothing. */
  lemma FieldByHeader(t: Task, name: string)
    ensures Field(t, name) == FieldOf(t, name)
  {
    ColumnsDistinct();
    if name in Columns {
      var k :| 0 <= k < |Columns| && Columns[k] == name;
      LookupDistinct(Columns, Cells(t), k);
    } else {
      assert FieldOf(t, name) == None;
    }
  }
}

=== FILE: rows.dfy ===
/** Building the row a save writes: the create form's appended row
    (main.py:103-111), the edit form's A..O overwrite (main.py:214-223),
    and the edit form's starting values, including the select boxes' index
    fallback (main.py:164-166). */
module RowBuilder {
  import opened Wrappers
  import opened Calendar
  import opened Codec
  import opened CodecLaws
  import opened EditDefaults
  import opened Record

  // ---------------------------------------------------------------------
  // Select-box default

  /** Position of the first `v` in `options` (`list.index`). */
  function FirstIndex(options: seq<string>, v: string): (r: nat)
    requires v in options
    ensures r < |options| && options[r] == v
    ensures forall j :: 0 <= j < r ==> options[j] != v
  {
    if options[0] == v then 0 else 1 + FirstIndex(options[1..], v)
  }

  /** The select box's starting index: the position of the current value
      when it is one of the options, else 0. */
  function SelectIndex(options: seq<string>, v: string): (r: nat)
    requires |options| > 0
    ensures r < |options|
    ensures v in options ==> options[r] == v && forall j :: 0 <= j < r ==> options[j] != v
    ensures v !in options ==> r == 0
  {
    if v in options then FirstIndex(options, v) else 0
  }

  /** The option the select box shows before the user touches it. */
  function Preselected(options: seq<string>, v: string): (r: string)
    requires |options| > 0
    ensures r in options
    ensures r == v <==> v in options
  {
    options[SelectIndex(options, v)]
  }

  // ---------------------------------------------------------------------
  // Create

  /** The create form's widgets. The start date and time default to the
      current time in the page, which is outside this model. */
  datatype CreateForm = CreateForm(
    job: string, status: string, title: string, location: string,
    staff: string, dept: string, requester: string,
    startDate: Date, startTime: Time,
    content: string, cause: string, action: string, photo: string, memo: string)

  datatype CreateError = MissingTitle

  /** The row the create form appends. It is refused when the title is
      empty; otherwise the occurrence date is the date of `now`, the start
      is the date and time widgets in full form, and the completion cell is
      left blank. */
  function CreateRow(now: DateTime, f: CreateForm): (r: Result<Task, CreateError>)
    ensures r.Failure? <==> f.title == ""
    ensures r.Success? ==> && r.value.title == f.title
                           && r.value.occurred == FormatCell(now.date, now.time, DateOnly)
                           && r.value.started == FormatCell(f.startDate, f.startTime, Full)
                           && r.value.completed == ""
    ensures r.Success? ==> && r.value.job == f.job && r.value.status == f.status
                           && r.value.content == f.content && r.value.cause == f.cause
                           && r.value.action == f.action && r.value.location == f.location
                           && r.value.dept == f.dept && r.value.requester == f.requester
                           && r.value.staff == f.staff && r.value.memo == f.memo
                           && r.value.photo == f.photo
  {
    if f.title == "" then Failure(MissingTitle)
    else
      Success(Task(
        FormatDate(now.date), f.job, f.status, f.title,
        f.content, f.cause, f.action,
        f.location, f.dept, f.requester, f.staff,
        FormatMinute(f.startDate, f.startTime), "", f.memo, f.photo))
  }

  // ---------------------------------------------------------------------
  // Update

  /** The edit form's widgets at the moment of saving. */
  datatype EditForm = EditForm(
    occurredDate: Date, job: string, status: string, title: string,
    location: string, dept: string, requester: string, staff: string,
    start: FieldInput, completion: FieldInput,
    content: string, cause: string, action: string, photo: string, memo: string)

  /** The row the edit form writes over A..O. Each date/time cell is
      rendered in the mode the user left selected; the title is not
      checked on this path. */
  function UpdateRow(f: EditForm): (r: Task)
    ensures r.occurred == FormatCell(f.occurredDate, Midnight, DateOnly)
    ensures r.started == FormatCell(f.start.date, f.start.time, f.start.mode)
    ensures r.completed == FormatCell(f.completion.date, f.completion.time, f.completion.mode)
    ensures f.start.mode == Blank <==> r.started == ""
    ensures f.completion.mode == Blank <==> r.completed == ""
    ensures && r.title == f.title && r.status == f.status && r.job == f.job && r.staff == f.staff
            && r.content == f.content && r.cause == f.cause && r.action == f.action
            && r.location == f.location && r.dept == f.dept && r.requester == f.requester
            && r.memo == f.memo && r.photo == f.photo
  {
    Task(
      FormatDate(f.occurredDate), f.job, f.status, f.title,
      f.content, f.cause, f.action,
      f.location, f.dept, f.requester, f.staff,
      SaveField(f.start), SaveField(f.completion), f.memo, f.photo)
  }

  /** Each date/time cell of an updated row reads back as the widgets'
      value in the chosen mode. */
  lemma UpdateRowReadsBack(f: EditForm)
    requires ValidDate(f.occurredDate)
    requires ValidDate(f.start.date) && ValidTime(f.start.time)
    requires ValidDate(f.completion.date) && ValidTime(f.completion.time)
    ensures ParseCell(Some(UpdateRow(f).occurred)) == Some(DateTime(f.occurredDate, Midnight))
    ensures var s := ParseCell(Some(UpdateRow(f).started));
      match f.start.mode
      case Full => s == Some(DateTime(f.start.date, AtMinute(f.start.time)))
      case DateOnly => s == Some(DateTime(f.start.date, Midnight))
      case Blank => s == None
    ensures var c := ParseCell(Some(UpdateRow(f).completed));
      match f.completion.mode
      case Full => c == Some(DateTime(f.completion.date, AtMinute(f.completion.time)))
      case DateOnly => c == Some(DateTime(f.completion.date, Midnight))
      case Blank => c == None
  {
    FormatThenParse(f.occurredDate, Midnight, DateOnly);
    FormatThenParse(f.start.date, f.start.time, f.start.mode);
    FormatThenParse(f.completion.date, f.completion.time, f.completion.mode);
  }

  // ---------------------------------------------------------------------
  // The edit form as first shown

  /** The edit form's widgets before the user changes anything, for the
      stored row `curr`. `today` is the date the date widgets fall back
      to and `staffList` the assignee roster. */
  function InitialEditForm(curr: Task, today: Date, staffList: seq<string>): (f: EditForm)
    requires |staffList| > 0
    ensures f.status in StatusOptions && f.job in JobOptions && f.staff in staffList
    ensures f.title == curr.title
  {
    EditForm(
      OccurrenceDefault(Some(curr.occurred), today),
      Preselected(JobOptions, curr.job),
      Preselected(StatusOptions, curr.status),
      curr.title, curr.location, curr.dept, curr.requester,
      Preselected(staffList, curr.staff),
      StartDefault(Some(curr.started), today),
      CompletionDefault(Some(curr.completed), today),
      curr.content, curr.cause, curr.action, curr.photo, curr.memo)
  }

  /** The row an untouched save writes for `curr`. */
  function UntouchedEdit(curr: Task, today: Date, staffList: seq<string>): Task
    requires |staffList| > 0
  {
    UpdateRow(InitialEditForm(curr, today, staffList))
  }

  /** What an untouched save does to each cell: free text is kept; a
      status, job type or assignee that is not among the options becomes the
      first option; an unreadable occurrence date becomes today; an empty or
      unreadable start or completion cell stays (or becomes) empty; a
      readable one is kept, with any seconds dropped. */
  lemma UntouchedEditCells(curr: Task, today: Date, staffList: seq<string>)
    requires ValidDate(today) && |staffList| > 0
    ensures var r := UntouchedEdit(curr, today, staffList);
      && r.title == curr.title && r.content == curr.content && r.cause == curr.cause
      && r.action == curr.action && r.location == curr.location && r.dept == curr.dept
      && r.requester == curr.requester && r.memo == curr.memo && r.photo == curr.photo
      && r.status == (if curr.status in StatusOptions then curr.status else StatusOptions[0])
      && r.job == (if curr.job in JobOptions then curr.job else JobOptions[0])
      && r.staff == (if curr.staff in staffList then curr.staff else staffList[0])
      && r.occurred == (if ParseCell(Some(curr.occurred)).Some? then curr.occurred[..10]
                        else FormatDate(today))
      && (r.started == "" <==> ParseCell(Some(curr.started)).None?)
      && (r.completed == "" <==> ParseCell(Some(curr.completed)).None?)
      && (ParseCell(Some(curr.started)).Some? && |curr.started| != 19 ==> r.started == curr.started)
      && (ParseCell(Some(curr.completed)).Some? && |curr.completed| != 19 ==> r.completed == curr.completed)
      && (ParseCell(Some(curr.started)).Some? && |curr.started| == 19 ==> r.started == curr.started[..16])
      && (ParseCell(Some(curr.completed)).Some? && |curr.completed| == 19 ==> r.completed == curr.completed[..16])
  {
    UntouchedOccurrence(Some(curr.occurred), today);
    UntouchedSave(Some(curr.started), today, StartFallbackTime);
    UntouchedSave(Some(curr.completed), today, CompletionFallbackTime);
  }

  /** A stored date/time cell that an untouched save writes back as it is. */
  predicate SteadyCell(s: string) {
    s == "" || (ParseCell(Some(s)).Some? && |s| != 19)
  }

  /** A row every cell of which an untouched save keeps. */
  predicate SteadyRow(t: Task, staffList: seq<string>) {
    && t.status in StatusOptions && t.job in JobOptions && t.staff in staffList
    && ParseCell(Some(t.occurred)).Some? && |t.occurred| == 10
    && SteadyCell(t.started) && SteadyCell(t.completed)
  }

  /** Opening a steady row and saving without changes rewrites it exactly. */
  lemma UntouchedEditKeepsSteadyRow(curr: Task, today: Date, staffList: seq<string>)
    requires ValidDate(today) && |staffList| > 0
    requires SteadyRow(curr, staffList)
    ensures UntouchedEdit(curr, today, staffList) == curr
  {
    UntouchedEditCells(curr, today, staffList);
  }

  /** A task just created is steady in its date/time cells: reopened and
      saved untouched, its start is unchanged and its completion stays
      empty. */
  lemma CreateThenUntouchedEdit(now: DateTime, f: CreateForm, today: Date, staffList: seq<string>)
    requires ValidDateTime(now) && ValidDate(f.startDate) && ValidTime(f.startTime)
    requires ValidDate(today) && |staffList| > 0
    requires f.title != ""
    ensures var created := CreateRow(now, f).value;
      var saved := UntouchedEdit(created, today, staffList);
      && saved.started == created.started
      && saved.completed == ""
      && saved.occurred == created.occurred
  {
    var created := CreateRow(now, f).value;
    FormatThenParse(f.startDate, f.startTime, Full);
    FormatThenParse(now.date, now.time, DateOnly);
    UntouchedEditCells(created, today, staffList);
  }
}

=== FILE: store.dfy ===
/** The main worksheet as the page uses it: its data rows (the header row
    is fixed), addressed by sheet row number. Appending a created row
    (main.py:111), overwriting A..O of one row (main.py:223) and deleting a
    row (main.py:157). The remote service itself is outside the model. */
module Store {
  import opened Wrappers
  import opened Calendar
  import opened Record
  import opened RowBuilder
  import opened Views

  datatype StoreError = RowOutOfRange

  /** The data row a sheet row number addresses exists. */
  predicate InRange(sheet: seq<Task>, rowNo: int) {
    2 <= rowNo < |sheet| + 2
  }

  /** `append_row`: the new row goes after the last one; every existing
      row keeps its row number. */
  function Append(sheet: seq<Task>, t: Task): (r: seq<Task>)
    ensures |r| == |sheet| + 1 && r[|sheet|] == t
    ensures forall i :: 0 <= i < |sheet| ==> r[i] == sheet[i]
  {
    sheet + [t]
  }

  /** `update(range_name=f"A{n}:O{n}", ...)`: row `rowNo` is replaced,
      every other row is untouched. */
  function UpdateAt(sheet: seq<Task>, rowNo: int, t: Task): (r: Result<seq<Task>, StoreError>)
    ensures r.Success? <==> InRange(sheet, rowNo)
    ensures r.Success? ==> |r.value| == |sheet| && r.value[rowNo - 2] == t
    ensures r.Success? ==> forall i :: 0 <= i < |sheet| && i != rowNo - 2 ==> r.value[i] == sheet[i]
  {
    if InRange(sheet, rowNo) then Success(sheet[rowNo - 2 := t]) else Failure(RowOutOfRange)
  }

  /** `delete_rows(n)`: row `rowNo` is removed and every row below it
      moves up by one. */
  function DeleteAt(sheet: seq<Task>, rowNo: int): (r: Result<seq<Task>, StoreError>)
    ensures r.Success? <==> InRange(sheet, rowNo)
    ensures r.Success? ==> |r.value| == |sheet| - 1
    ensures r.Success? ==> forall i :: 0 <= i < rowNo - 2 ==> r.value[i] == sheet[i]
    ensures r.Success? ==> forall i :: rowNo - 2 <= i < |r.value| ==> r.value[i] == sheet[i + 1]
  {
    if InRange(sheet, rowNo) then Success(sheet[..rowNo - 2] + sheet[rowNo - 1..])
    else Failure(RowOutOfRange)
  }

  /** Submitting the create form: a row with an empty title is not
      written at all; otherwise the created row is appended. */
  function SubmitCreate(sheet: seq<Task>, now: DateTime, f: CreateForm): (r: seq<Task>)
    ensures f.title == "" ==> r == sheet
    ensures f.title != "" ==>
      && |r| == |sheet| + 1 && r[..|sheet|] == sheet
      && r[|sheet|].title == f.title && r[|sheet|].completed == ""
    ensures f.title != "" ==> CreateRow(now, f).Success? && r[|sheet|] == CreateRow(now, f).value
  {
    match CreateRow(now, f)
    case Failure(_) => sheet
    case Success(t) => Append(sheet, t)
  }

  /** A row number taken from a search of the same read addresses the
      row the search showed, and saving there puts the new row in its place
      (and, by `UpdateAt`, nowhere else). */
  lemma SaveAtSearchedRow(sheet: seq<Task>, kw: string, t: Task)
    ensures forall j :: 0 <= j < |Search(sheet, kw)| ==>
      && InRange(sheet, Search(sheet, kw)[j].rowNo)
      && sheet[Search(sheet, kw)[j].rowNo - 2] == Search(sheet, kw)[j].row
      && UpdateAt(sheet, Search(sheet, kw)[j].rowNo, t) == Success(sheet[Search(sheet, kw)[j].rowNo - 2 := t])
  {
  }

  /** After deleting row `n`, a fresh read numbers the rows above it as
      before and every row below it one less. */
  lemma DeleteRenumbers(sheet: seq<Task>, n: int)
    requires InRange(sheet, n)
    ensures var before := Numbered(sheet);
      var now := Numbered(DeleteAt(sheet, n).value);
      && |now| == |before| - 1
      && (forall i :: 0 <= i < n - 2 ==> now[i] == before[i])
      && (forall i :: n - 2 < i < |sheet| ==>
            now[i - 1].row == before[i].row && now[i - 1].rowNo == before[i].rowNo - 1)
  {
  }

  /** A row number read before a delete of an earlier row is stale: used
      for an update, it overwrites the row that was below the intended one. */
  lemma StaleRowNumberHitsNextRow(sheet: seq<Task>, n: int, stale: int, t: Task)
    requires InRange(sheet, n) && n < stale < |sheet| + 1
    ensures var after := DeleteAt(sheet, n).value;
      var r := UpdateAt(after, stale, t);
      && r.Success?
      && r.value[stale - 2] == t
      && after[stale - 2] == sheet[stale - 1]
  {
  }
}

=== FILE: views.dfy ===
/** The two read-only views of the table: the keyword search of the
    search/edit tab with its `row_no` tagging (main.py:126-128) and the
    open-task list of the dashboard tab (main.py:68-71). A table is the
    sequence of data rows as read, top to bottom; the header row is not
    part of it. */
module Views {
  import opened Record

  // ---------------------------------------------------------------------
  // Keyword search

  predicate IsPrefixOf(p: string, s: string) {
    |p| <= |s| && s[..|p|] == p
  }

  /** Plain substring containment (`str.contains` on a keyword without
      regular-expression metacharacters). */
  predicate Contains(s: string, kw: string) {
    exists i :: 0 <= i <= |s| && IsPrefixOf(kw, s[i..])
  }

  /** Some cell of the row contains the keyword. */
  predicate Matches(t: Task, kw: string) {
    exists k :: 0 <= k < |Cells(t)| && Contains(Cells(t)[k], kw)
  }

  /** A row that survives the search, tagged with its sheet row number. */
  datatype Hit<T> = Hit(rowNo: nat, row: T)

  /** The sheet row number of the data row at index `i`: the header takes
      row 1 and rows are numbered from 1. */
  function RowNumber(i: nat): (n: nat)
    ensures n >= 2 && n - 2 == i
  {
    i + 2
  }

  /** Every entry of `r` is a row from index `lo` on that `keep` selects,
      tagged with its own row number. */
  ghost predicate TaggedSound<T>(rows: seq<T>, keep: T -> bool, lo: nat, r: seq<Hit<T>>) {
    forall j :: 0 <= j < |r| ==>
      && lo + 2 <= r[j].rowNo < |rows| + 2
      && rows[r[j].rowNo - 2] == r[j].row
      && keep(r[j].row)
  }

  /** Row numbers strictly increase along `r`. */
  predicate Ascending<T>(r: seq<Hit<T>>) {
    forall j, j' :: 0 <= j < j' < |r| ==> r[j].rowNo < r[j'].rowNo
  }

  /** Every row from index `lo` on that `keep` selects has an entry in `r`. */
  ghost predicate TaggedComplete<T>(rows: seq<T>, keep: T -> bool, lo: nat, r: seq<Hit<T>>) {
    forall m {:trigger RowNumber(m)} :: lo <= m < |rows| && keep(rows[m]) ==> Hit(RowNumber(m), rows[m]) in r
  }

  /** `r` lists, in order and each once, exactly the rows from index `lo`
      on that `keep` selects, each tagged with its row number. */
  ghost predicate Tagged<T>(rows: seq<T>, keep: T -> bool, lo: nat, r: seq<Hit<T>>) {
    TaggedSound(rows, keep, lo, r) && Ascending(r) && TaggedComplete(rows, keep, lo, r)
  }

  lemma SoundStep<T>(rows: seq<T>, keep: T -> bool, i: nat, rest: seq<Hit<T>>)
    requires i < |rows| && TaggedSound(rows, keep, i + 1, rest)
    ensures TaggedSound(rows, keep, i, rest)
    ensures keep(rows[i]) ==> TaggedSound(rows, keep, i, [Hit(RowNumber(i), rows[i])] + rest)
  {
  }

  lemma AscendingStep<T>(rows: seq<T>, keep: T -> bool, i: nat, rest: seq<Hit<T>>)
    requires i < |rows| && TaggedSound(rows, keep, i + 1, rest) && Ascending(rest)
    ensures Ascending([Hit(RowNumber(i), rows[i])] + rest)
  {
  }

  lemma CompleteStep<T>(rows: seq<T>, keep: T -> bool, i: nat, rest: seq<Hit<T>>)
    requires i < |rows| && TaggedComplete(rows, keep, i + 1, rest)
    ensures keep(rows[i]) ==> TaggedComplete(rows, keep, i, [Hit(RowNumber(i), rows[i])] + rest)
    ensures !keep(rows[i]) ==> TaggedComplete(rows, keep, i, rest)
  {
  }

  lemma TaggedStep<T>(rows: seq<T>, keep: T -> bool, i: nat, rest: seq<Hit<T>>)
    requires i < |rows| && Tagged(rows, keep, i + 1, rest)
    ensures keep(rows[i]) ==> Tagged(rows, keep, i, [Hit(RowNumber(i), rows[i])] + rest)
    ensures !keep(rows[i]) ==> Tagged(rows, keep, i, rest)
  {
    SoundStep(rows, keep, i, rest);
    AscendingStep(rows, keep, i, rest);
    CompleteStep(rows, keep, i, rest);
  }

  /** The rows from index `i` on that `keep` selects, in order, each
      tagged with its row number. */
  function Scan<T>(rows: seq<T>, keep: T -> bool, i: nat): (r: seq<Hit<T>>)
    requires i <= |rows|
    decreases |rows| - i
    ensures Tagged(rows, keep, i, r)
  {
    if i == |rows| then []
    else
      var rest := Scan(rows, keep, i + 1);
      TaggedStep(rows, keep, i, rest);
      if keep(rows[i]) then [Hit(RowNumber(i), rows[i])] + rest else rest
  }

  /** The whole read, each row tagged with its row number
      (`df_raw.copy()` followed by the `row_no` column). */
  function Numbered<T>(rows: seq<T>): (r: seq<Hit<T>>)
    ensures |r| == |rows|
    ensures forall i :: 0 <= i < |rows| ==> r[i] == Hit(RowNumber(i), rows[i])
  {
    seq(|rows|, i requires 0 <= i < |rows| => Hit(RowNumber(i), rows[i]))
  }

  /** The search of the search/edit tab. An empty keyword keeps every row
      in table order; otherwise the result is exactly the rows with a cell
      containing the keyword, in table order. Either way each row is tagged
      with the sheet row number of its position in the full read. */
  function Search(rows: seq<Task>, kw: string): (r: seq<Hit<Task>>)
    ensures forall j :: 0 <= j < |r| ==>
      && 2 <= r[j].rowNo < |rows| + 2
      && rows[r[j].rowNo - 2] == r[j].row
    ensures kw != "" ==> forall j :: 0 <= j < |r| ==> Matches(r[j].row, kw)
    ensures forall j, j' :: 0 <= j < j' < |r| ==> r[j].rowNo < r[j'].rowNo
    ensures kw != "" ==> forall m {:trigger RowNumber(m)} :: 0 <= m < |rows| && Matches(rows[m], kw) ==>
      Hit(RowNumber(m), rows[m]) in r
    ensures kw == "" ==> |r| == |rows| && forall i :: 0 <= i < |rows| ==> r[i] == Hit(RowNumber(i), rows[i])
  {
    if kw == "" then Numbered(rows)
    else
      Scan(rows, MatchesKeyword(kw), 0)
  }

  /** The row filter of a non-empty keyword. */
  function MatchesKeyword(kw: string): (keep: Task -> bool)
    ensures forall t :: keep(t) == Matches(t, kw)
  {
    t => Matches(t, kw)
  }

  /** Every row matches the empty keyword. */
  lemma EmptyKeywordMatchesAll(t: Task)
    ensures Matches(t, "")
  {
    assert IsPrefixOf("", Cells(t)[0][0..]);
  }

  /** When `keep` selects every row, the scan is the whole table in order
      and the row number of the `j`-th result is `i + j + 2`. */
  lemma {:induction false} ScanKeepsAll<T>(rows: seq<T>, keep: T -> bool, i: nat)
    requires i <= |rows|
    requires forall m :: i <= m < |rows| ==> keep(rows[m])
    decreases |rows| - i
    ensures var r := Scan(rows, keep, i);
      |r| == |rows| - i && forall j :: 0 <= j < |r| ==> r[j] == Hit(RowNumber(i + j), rows[i + j])
  {
    if i < |rows| {
      ScanKeepsAll(rows, keep, i + 1);
      var rest := Scan(rows, keep, i + 1);
      var r := Scan(rows, keep, i);
      assert keep(rows[i]);
      assert r == [Hit(RowNumber(i), rows[i])] + rest;
      forall j | 0 < j < |r|
        ensures r[j] == Hit(RowNumber(i + j), rows[i + j])
      {
        assert r[j] == rest[j - 1];
      }
    }
  }

  /** The empty-keyword shortcut agrees with filtering by the empty
      keyword: skipping the filter changes nothing. */
  lemma EmptyKeywordShortcut(rows: seq<Task>)
    ensures Scan(rows, MatchesKeyword(""), 0) == Search(rows, "")
  {
    forall t: Task { EmptyKeywordMatchesAll(t); }
    ScanKeepsAll(rows, MatchesKeyword(""), 0);
  }

  // ---------------------------------------------------------------------
  // Open-task view

  /** Code-point lexicographic order on text, the order pandas sorts a
      text column in. */
  predicate LexLe(a: string, b: string)
    decreases |a|
  {
    |a| == 0 || (|b| > 0 && (a[0] < b[0] || (a[0] == b[0] && LexLe(a[1..], b[1..]))))
  }

  lemma {:induction false} LexLeTotal(a: string, b: string)
    ensures LexLe(a, b) || LexLe(b, a)
    decreases |a|
  {
    if |a| > 0 && |b| > 0 && a[0] == b[0] {
      LexLeTotal(a[1..], b[1..]);
    }
  }

  lemma {:induction false} LexLeTransitive(a: string, b: string, c: string)
    requires LexLe(a, b) && LexLe(b, c)
    ensures LexLe(a, c)
    decreases |a|
  {
    if |a| > 0 && a[0] == b[0] && b[0] == c[0] {
      LexLeTransitive(a[1..], b[1..], c[1..]);
    }
  }

  /** Descending by occurrence-date text. */
  predicate SortedDesc(s: seq<Task>) {
    forall i, j :: 0 <= i < j < |s| ==> LexLe(s[j].occurred, s[i].occurred)
  }

  /** `x` is not below any task of `s` by occurrence-date text. */
  predicate AtLeastAll(x: Task, s: seq<Task>) {
    forall k :: 0 <= k < |s| ==> LexLe(s[k].occurred, x.occurred)
  }

  lemma PrependSorted(x: Task, s: seq<Task>)
    requires SortedDesc(s) && AtLeastAll(x, s)
    ensures SortedDesc([x] + s)
  {
    var r := [x] + s;
    forall i, j | 0 <= i < j < |r|
      ensures LexLe(r[j].occurred, r[i].occurred)
    {
      if i > 0 {
        assert r[i] == s[i - 1] && r[j] == s[j - 1];
      } else {
        assert r[j] == s[j - 1];
      }
    }
  }

  lemma HeadAtLeastAll(x: Task, s: seq<Task>)
    requires SortedDesc(s) && |s| > 0 && LexLe(s[0].occurred, x.occurred)
    ensures AtLeastAll(x, s)
  {
    forall k | 0 <= k < |s|
      ensures LexLe(s[k].occurred, x.occurred)
    {
      if k > 0 {
        LexLeTransitive(s[k].occurred, s[0].occurred, x.occurred);
      }
    }
  }

  lemma AtLeastAllOfMultiset(y: Task, r: seq<Task>, x: Task, s: seq<Task>)
    requires multiset(r) == multiset(s) + multiset{x}
    requires AtLeastAll(y, s) && LexLe(x.occurred, y.occurred)
    ensures AtLeastAll(y, r)
  {
    forall k | 0 <= k < |r|
      ensures LexLe(r[k].occurred, y.occurred)
    {
      assert r[k] in multiset(r);
      if r[k] != x {
        assert r[k] in multiset(s);
        var m :| 0 <= m < |s| && s[m] == r[k];
      }
    }
  }

  /** Inserts `x` into a list sorted by descending occurrence date. */
  function InsertDesc(x: Task, s: seq<Task>): (r: seq<Task>)
    requires SortedDesc(s)
    ensures SortedDesc(r)
    ensures multiset(r) == multiset(s) + multiset{x}
  {
    if |s| == 0 then [x]
    else if LexLe(s[0].occurred, x.occurred) then
      HeadAtLeastAll(x, s);
      PrependSorted(x, s);
      [x] + s
    else
      var rest := InsertDesc(x, s[1..]);
      LexLeTotal(s[0].occurred, x.occurred);
      assert AtLeastAll(s[0], s[1..]);
      AtLeastAllOfMultiset(s[0], rest, x, s[1..]);
      PrependSorted(s[0], rest);
      assert s == [s[0]] + s[1..];
      [s[0]] + rest
  }

  /** `sort_values("発生日", ascending=False)`: a permutation of its input
      in descending order of the occurrence-date text. The order among rows
      with equal dates is left open, as pandas' default sort is not stable. */
  function SortByOccurredDesc(s: seq<Task>): (r: seq<Task>)
    ensures SortedDesc(r)
    ensures multiset(r) == multiset(s)
  {
    if |s| == 0 then []
    else
      assert s == [s[0]] + s[1..];
      InsertDesc(s[0], SortByOccurredDesc(s[1..]))
  }

  /** `df_all[df_all["ステータス"] != "完了"]`: the rows not done, in table order. */
  function NotDone(rows: seq<Task>): (r: seq<Task>)
    ensures forall t :: t in r ==> t.status != Done
    ensures forall t :: multiset(r)[t] == if t.status != Done then multiset(rows)[t] else 0
  {
    if |rows| == 0 then []
    else
      assert rows == [rows[0]] + rows[1..];
      var rest := NotDone(rows[1..]);
      if rows[0].status != Done then [rows[0]] + rest else rest
  }

  /** The dashboard's open-task list: the rows whose status is not done,
      each as often as it occurs in the table, in descending order of
      occurrence date. */
  function OpenTasks(rows: seq<Task>): (r: seq<Task>)
    ensures SortedDesc(r)
    ensures forall t :: multiset(r)[t] == if t.status != Done then multiset(rows)[t] else 0
  {
    SortByOccurredDesc(NotDone(rows))
  }

  /** A task is on the open-task list exactly when it is in the table and
      not done. */
  lemma OpenTasksMembers(rows: seq<Task>, t: Task)
    ensures t in OpenTasks(rows) <==> t in rows && t.status != Done
  {
    assert t in OpenTasks(rows) <==> t in multiset(OpenTasks(rows));
    assert t in rows <==> t in multiset(rows);
  }
}

=== FILE: wrappers.dfy ===
/** Wrappers used across the model: an absent value
    (`Option`) and a value-or-error (`Result`). */
module Wrappers {

  /** A value that may be absent (Python's `None`). */
  datatype Option<+T> = None | Some(value: T)

  /** Either a computed value or the reason it could not be computed. */
  datatype Result<+R, +E> = Success(value: R) | Failure(error: E)
}
